=== FILE: README.md ===
# IGC fix records to a time-ordered trace

A Dafny model of the library core of `triangles`, a tool that reads a
glider's IGC flight log and measures triangles on the recorded path. The
model covers three things:

- the parser that turns the log's fix ("B") records into a trace of points;
- the time-only ordering of points and the stable sort that uses it;
- the perimeter of the triangle through three points of a trace.

The file contents are a byte sequence. They are cut into lines the way
`BufRead::split(b'\n')` does (`Lines.Split`), and lines whose first byte is
`B` are kept (`Igc.FixRecords`). Each kept line is read at fixed offsets:

- time: bytes 1..7;
- latitude: bytes 7..15;
- longitude: bytes 15..24.

The points are then sorted stably by time (`Igc.ParseTrace`). The source
panics on a short line or a non-digit field. The model returns
`Err(ParseError(line, fault))` instead, naming the first such fix record
and what went wrong with it, in the order the source reads the fields.

Coordinates are integer micro-degrees, and `Igc.Micro` computes them
exactly. `Igc.MicroRounds` proves `Igc.Micro` equal to `f64::round` (halves away from
zero), applied over the reals to the source's formula
`(deg + (min + ff/1000)/60) * 10^6`. The exact value is
`deg * 10^6 + 50 * (1000 * min + ff) / 3`. Its fractional part is 0, 1/3 or
2/3, never a half, so the integer result is the number the source holds
before its final division by 10^6.

The source reads two "thousandths" digits: bytes 5..7 of the latitude
field and bytes 6..8 of the longitude field. An IGC record carries three
thousandths digits, at line bytes 11..14 and 20..23. So the hundreds digit
(line bytes 11 and 20) is never read. The model keeps this behaviour:

- `Igc.UnreadBytesIgnored` shows those bytes cannot change the result;
- `IgcEncode.ParseEncodedFix` shows that a record written with thousandths
  `t` reads back as `t % 100`;
- `IgcEncode.ExampleRecord` gives a real record. In
  `B1101355206343N00006198W...`, 06.343 minutes is read as 06.043.

A hemisphere byte other than `N` (latitude) or `E` (longitude) gives a
negative coordinate.

Equality and comparison of points look at `time` alone. `Vec::sort` is
modelled by a stable insertion sort. `StableSort.StableSortIsSort` proves
that every sorted, stable rearrangement equals it, so the trace does not
depend on which stable algorithm is used.

The distance between two points is a parameter of
`Perimeter.TrianglePerimeter`. The only fact assumed about it is that a
point is at distance 0 from itself.

## Model

| member | source | states |
|---|---|---|
| Bytes.DigitsValue | src/lib.rs:79-81 | a digit string denotes a number below 10 to the power of its length |
| Bytes.ParseNat | src/lib.rs:79-81 | a field reads as a number exactly when it is non-empty and all digits; the value is below 10^width |
| Bytes.DecodeEncode | src/lib.rs:79-81 | reading the zero-padded decimal form of n gives back n whenever n fits the width |
| Bytes.EncodeDecode | src/lib.rs:79-81 | a digit string is the padded decimal form of the number it denotes (the converse round trip) |
| Bytes.ParseEncoded | src/lib.rs:79-81 | a field written from n reads back as n |
| Lines.FirstNewline | src/lib.rs:73 | the returned position is the first newline, or the end when there is none |
| Lines.Split | src/lib.rs:73 | no segment of the split contains a newline |
| Lines.SplitUnsplit | src/lib.rs:73 | newline-free lines are recovered exactly from their newline-terminated text |
| Lines.UnsplitSplit | src/lib.rs:73 | splitting loses only a final newline: rejoining gives the contents, plus a newline if they did not end in one |
| Points.Cmp | src/lib.rs:30-33 | the comparison is Less, Equal or Greater exactly as the times are; coordinates play no part |
| Points.PartialCmp | src/lib.rs:50-54 | partial_cmp always answers, and its answer is cmp's |
| Points.Eq | src/lib.rs:56-60 | two points are equal exactly when cmp says Equal, whatever their coordinates |
| Points.Max | src/lib.rs:35-40 | max returns one of its arguments, one not earlier than either, and the second on a tie |
| Points.Min | src/lib.rs:42-47 | min returns one of its arguments, one not later than either, and the first on a tie |
| Points.CmpTotalPreorder | src/lib.rs:30-33 | cmp is reflexive, swaps to its reverse, and is transitive |
| Points.EqEquivalence | src/lib.rs:56-62 | eq is an equivalence relation, and points with equal times are equal |
| Points.MinMaxSplitPair | src/lib.rs:35-47 | min and max of a pair together are that pair, never one point twice |
| StableSort.Insert | src/lib.rs:88 | insertion adds exactly the new point, which lands in front or behind the old first point |
| StableSort.InsertSorted | src/lib.rs:88 | inserting into a sorted sequence keeps it sorted |
| StableSort.Sort | src/lib.rs:88 | the sorted trace is ascending by time and a permutation of its input |
| StableSort.InsertStable | src/lib.rs:88 | insertion never moves a point past another point with the same time |
| StableSort.SortStable | src/lib.rs:88 | for every time, the points with that time keep their input order |
| StableSort.SortedStableUnique | src/lib.rs:88 | two sorted sequences with the same points at every time, in the same order, are equal |
| StableSort.StableSortIsSort | src/lib.rs:88 | every sorted, stable rearrangement of a trace is the modelled sort, so the trace does not depend on the algorithm |
| StableSort.SortPairIsMinMax | src/lib.rs:35-47 | sorting two points gives their min then their max |
| Igc.Micro | src/lib.rs:98 | the integer micro-degree magnitude is at least degrees * 10^6, and three times its minute part is within 1 of 50 * (1000 * min + ff), so it is the integer nearest (deg + (min + ff/1000)/60) * 10^6 |
| Igc.Hemisphere | src/lib.rs:106-107 | the sign choice keeps the magnitude and makes the value negative exactly when the hemisphere byte is not N (E for longitude) and the magnitude is not 0 |
| Igc.MicroRounds | src/lib.rs:97-99 | the integer micro-degree value equals f64::round of (deg + (min + ff/1000)/60) * 10^6 computed over the reals |
| Igc.DecodeLat | src/lib.rs:102-110 | latitude succeeds iff bytes 0..4 and 5..7 are digits; degrees 0..2, minutes 2..4, thousandths 5..7; positive iff byte 7 is N; byte 4 is unused |
| Igc.DecodeLon | src/lib.rs:92-100 | longitude succeeds iff bytes 0..5 and 6..8 are digits; degrees 0..3, minutes 3..5, thousandths 6..8; positive iff byte 8 is E; byte 5 is unused |
| Igc.ParseFix | src/lib.rs:78-84 | a B line reads iff it has 24 bytes and digits in every read field; the point is the one the line layout gives; time is below 1,000,000; otherwise the fault is the first failure in read order: shorter than 7 bytes, bad time, shorter than 15, bad latitude slice, shorter than 24, bad longitude slice, each stated as an iff |
| Igc.UnreadBytesIgnored | src/lib.rs:82-83 | line bytes 11 and 20 and everything from byte 24 on cannot change the outcome of reading a fix |
| Igc.DecodeLatReads | src/lib.rs:103-106 | the latitude depends only on bytes 0..4 and 5..8 of its field |
| Igc.DecodeLonReads | src/lib.rs:93-96 | the longitude depends only on bytes 0..5 and 6..9 of its field |
| Igc.FixTimeBound | src/lib.rs:79-81 | the time of a well-formed record, six digits read as one number, is below 1,000,000 |
| Igc.FixRecords | src/lib.rs:76 | the filter keeps at most as many lines as the file has, and every kept line starts with B |
| Igc.FixRecordsMembers | src/lib.rs:76 | the kept lines are exactly the lines of the file that start with B |
| Igc.FixRecordsCount | src/lib.rs:76 | each line starting with B is kept exactly as many times as it occurs in the file, every other line zero times |
| Igc.FixRecordsAppend | src/lib.rs:76 | filtering a concatenation is the concatenation of the filtered parts, so the kept lines stay in file order |
| Igc.FixesWellFormedMeans | src/lib.rs:76-84 | the recursive well-formedness of a file holds iff every line starting with B is a well-formed record |
| Igc.FirstBadFixMeans | src/lib.rs:76-84 | the recursive first-failure predicate holds iff line i starts with B, fails with the given fault, and every earlier B line is well formed |
| Igc.FixPoints | src/lib.rs:77-87 | one point per fix record, in record order, each below time 1,000,000 |
| Igc.CollectFixes | src/lib.rs:72-87 | collection succeeds iff every B line is well formed, giving one point per B line; otherwise the error names the first malformed B line and its fault |
| Igc.ParseTrace | src/lib.rs:66-90 | the parse succeeds iff every B line is well formed; the trace is then sorted, a stable permutation of the B lines' points, one per B line; otherwise the error names the first malformed B line |
| Igc.OnlyFixRecordsMatter | src/lib.rs:76 | two files with the same B lines parse to the same trace: other lines are dropped |
| Igc.WellFormedThroughRecords | src/lib.rs:76-84 | every B line of a file is well formed exactly when every kept record is |
| IgcEncode.EncodeFix | src/lib.rs:79-83 | the written record is a 24-byte B line without a newline, in the layout the parser reads |
| IgcEncode.ReadTwoOfThree | src/lib.rs:105 | the two thousandths digits read are the three written ones modulo 100 |
| IgcEncode.ParseEncodedFix | src/lib.rs:78-84 | a written record reads back as its time and coordinates, with the thousandths taken modulo 100, whatever follows byte 24 |
| IgcEncode.ParseEncodedFile | src/lib.rs:66-90 | a file written from fixes parses to the stable sort of what each record reads back as |
| IgcEncode.ExampleRecord | src/lib.rs:78-84 | the fix 11:01:35, 52 deg 06.343 N, 0 deg 06.198 W fits its widths, is encoded as exactly the 24 bytes B1101355206343N00006198W, and reads back as (110135, 52100717, -101633) |
| Perimeter.TrianglePerimeter | src/lib.rs:112-122 | the perimeter is the sum of the three sides i-j, j-k, k-i; it is 0 for i = j = k and the there-and-back distance d(i, j) + d(j, i) when k = i |

## Left out

- Opening the file, `BufReader`, and the `unwrap` on `File::open` (src/lib.rs:67-68) are I/O. The model takes the file contents as bytes.
- Read errors dropped by `filter_map(Result::ok)` (src/lib.rs:75) are I/O failures and cannot occur on a byte sequence.
- The haversine body of `Point::distance` (src/lib.rs:16-27) is floating-point trigonometry. It is the `Metric` parameter of `Perimeter.TrianglePerimeter`, and only its zero self-distance is assumed. Symmetry and the triangle inequality do not hold exactly in `f64` and are not claimed.
- Perimeter.TrianglePerimeter: sums the three sides in exact real arithmetic, without the rounding of the two `f64` additions; the degenerate cases it states are exact in `f64` as well. An out-of-range index makes `triangle_perimeter` panic (src/lib.rs:118-120); the model makes in-range indices a precondition instead, so callers such as src/main.rs, which pass user-supplied indices unchecked, are not covered for that case.
- The `f64` coordinates, the final division by 10^6 (src/lib.rs:99, src/lib.rs:109) and the sign of a negative zero are not modelled. The integer micro-degree value relies on double-precision error at these magnitudes being far below the 1/6 gap to a rounding boundary.
- Bytes.ParseNat: rejects every field that is not all ASCII digits. `usize::parse` also accepts a leading `+`, and `f64::parse` also accepts forms such as `-1`, `.5`, `1.` or `inf`. Invalid UTF-8 is replaced by `from_utf8_lossy`. Such records are modelled as failures.
- Panics of the parser are modelled as an error value naming the line and the fault. The panic messages and the process abort are not modelled.
- The extremal-point reduction and the four-combination search of the best triangle are not in src/lib.rs. They are not part of this model.
- src/main.rs (argument parsing, comma splitting of indices, printing) and src/bin/jsonify.rs (numbered input files, JSON output) are command-line and serialisation code around the library. They are not part of this model.

=== FILE: bytes.dfy ===
/** Bytes, ASCII decimal digits and the fixed-width decimal fields of an IGC record. */
module Bytes {

  import opened Wrappers

  newtype byte = x: int | 0 <= x < 256

  const NL: byte := 10    // '\n'
  const ZERO: byte := 48  // '0'

  predicate IsDigit(b: byte) {
    ZERO <= b <= ZERO + 9
  }

  /** Every byte of `s` is a digit (stated from the last byte, as `DigitsValue` reads). */
  predicate AllDigits(s: seq<byte>) {
    |s| == 0 || (AllDigits(s[..|s| - 1]) && IsDigit(s[|s| - 1]))
  }

  function DigitValue(b: byte): (d: nat)
    requires IsDigit(b)
    ensures d < 10
  {
    (b - ZERO) as nat
  }

  function Pow10(n: nat): (r: nat)
    ensures r >= 1
  {
    if n == 0 then 1 else 10 * Pow10(n - 1)
  }

  /** The number written in decimal by a string of digits (most significant first). */
  function DigitsValue(s: seq<byte>): (r: nat)
    requires AllDigits(s)
    ensures r < Pow10(|s|)
  {
    if |s| == 0 then 0
    else
      var high := DigitsValue(s[..|s| - 1]);
      assert high <= Pow10(|s| - 1) - 1;
      high * 10 + DigitValue(s[|s| - 1])
  }

  /**
    * Reads a field as a decimal number. The model reads a field only when it
    * is non-empty and every byte is a digit; the Rust parsers behind it
    * (`str::parse::<usize>`, `str::parse::<f64>`) also accept forms such as
    * `+5`, `.5` or `inf`, which the model treats as failures.
    */
  function ParseNat(s: seq<byte>): (r: Option<nat>)
    ensures r.Some? <==> |s| > 0 && AllDigits(s)
    ensures r.Some? ==> r.value < Pow10(|s|)
  {
    if |s| > 0 && AllDigits(s) then Some(DigitsValue(s)) else None
  }

  /** Writes `n` in decimal on exactly `width` digits, zero padded (and cut to the low digits). */
  function EncodeDigits(n: nat, width: nat): (r: seq<byte>)
    ensures |r| == width
    ensures AllDigits(r)
  {
    if width == 0 then []
    else
      var high := EncodeDigits(n / 10, width - 1);
      var r := high + [ZERO + (n % 10) as byte];
      assert r[..width - 1] == high;
      r
  }

  /** Appending digit `d` to the decimal form of `q`, read back by division by 10. */
  lemma ShiftDigit(q: nat, d: nat)
    requires d < 10
    ensures (10 * q + d) / 10 == q && (10 * q + d) % 10 == d
  {
  }

  /** Decoding undoes encoding for every number that fits the width. */
  lemma {:induction false} DecodeEncode(n: nat, width: nat)
    requires n < Pow10(width)
    ensures DigitsValue(EncodeDigits(n, width)) == n
  {
    if width > 0 {
      var s := EncodeDigits(n, width);
      var q, d := n / 10, n % 10;
      assert n == 10 * q + d;
      assert q < Pow10(width - 1);
      assert s[..width - 1] == EncodeDigits(q, width - 1);
      assert DigitValue(s[width - 1]) == d;
      DecodeEncode(q, width - 1);
      assert DigitsValue(s) == DigitsValue(EncodeDigits(q, width - 1)) * 10 + d;
    }
  }

  /** Encoding undoes decoding: a digit string is the padded decimal form of its value. */
  lemma {:induction false} EncodeDecode(s: seq<byte>)
    requires AllDigits(s)
    ensures EncodeDigits(DigitsValue(s), |s|) == s
  {
    if |s| > 0 {
      var prefix, last := s[..|s| - 1], s[|s| - 1];
      var p, d := LastDigitSplit(s);
      EncodeDecode(prefix);
      EncodeLastDigit(10 * p + d, |s|, p, d);
      SplitLast(s);
    }
  }

  lemma SplitLast(s: seq<byte>)
    requires |s| > 0
    ensures s == s[..|s| - 1] + [s[|s| - 1]]
  {
  }

  /** A non-empty digit string is its prefix's value times ten plus its last digit. */
  lemma LastDigitSplit(s: seq<byte>) returns (p: nat, d: nat)
    requires |s| > 0 && AllDigits(s)
    ensures AllDigits(s[..|s| - 1]) && p == DigitsValue(s[..|s| - 1])
    ensures d < 10 && ZERO + d as byte == s[|s| - 1]
    ensures DigitsValue(s) == 10 * p + d
  {
    p, d := DigitsValue(s[..|s| - 1]), DigitValue(s[|s| - 1]);
  }

  /** Encoding `10 * p + d` writes `p` on one digit less, then the digit `d`. */
  lemma EncodeLastDigit(n: nat, width: nat, p: nat, d: nat)
    requires width > 0 && d < 10 && n == 10 * p + d
    ensures EncodeDigits(n, width) == EncodeDigits(p, width - 1) + [ZERO + d as byte]
  {
    ShiftDigit(p, d);
  }

  /** A successful read gives back the number the field was encoded from. */
  lemma ParseEncoded(n: nat, width: nat)
    requires 0 < width && n < Pow10(width)
    ensures ParseNat(EncodeDigits(n, width)) == Some(n)
  {
    DecodeEncode(n, width);
  }

  /** A field cut out of a record cut out of a line is a field of the line. */
  lemma SliceOfSlice(s: seq<byte>, lo: nat, hi: nat, i: nat, j: nat)
    requires lo <= hi <= |s| && i <= j <= hi - lo
    ensures s[lo..hi][i..j] == s[lo + i..lo + j]
  {
    assert forall k :: 0 <= k < j - i ==> s[lo..hi][i..j][k] == s[lo + i + k];
  }
}

=== FILE: igc.dfy ===
/**
  * Reading the fix ("B") records of an IGC flight log into a trace.
  *
  * A fix record is one line whose first byte is 'B'. The parser reads three
  * fixed-width fields out of it: the time in bytes 1..7, the latitude in
  * bytes 7..15 and the longitude in bytes 15..24 (end exclusive). The other
  * lines are dropped. A fix record that is too short or has a non-digit in
  * a field it reads aborts the whole parse: no trace is produced.
  */
module Igc {

  import opened Wrappers
  import opened Bytes
  import opened Lines
  import opened Points
  import opened StableSort

  const FIX: byte := 66    // 'B'
  const NORTH: byte := 78  // 'N'
  const EAST: byte := 69   // 'E'

  /** Why a fix record could not be read, in the order the fields are read. */
  datatype Fault =
    | ShortLine(needed: nat)  // the line has fewer bytes than a field slice ends at
    | BadTime
    | BadLatitude
    | BadLongitude

  /** `line` is the 0-based index of the offending line among all lines of the file. */
  datatype ParseError = ParseError(line: nat, fault: Fault)

  predicate IsFixRecord(line: seq<byte>) {
    |line| > 0 && line[0] == FIX
  }

  // ---------------------------------------------------------------------------
  // Coordinates

  /** `f64::round`: to the nearest integer, halves away from zero. */
  function Round(x: real): int {
    if x >= 0.0 then (x + 0.5).Floor else -((-x + 0.5).Floor)
  }

  /** The coordinate `lat_to_decimal` and `lon_to_decimal` compute before rounding, in micro-degrees. */
  function ExactMicro(degrees: nat, minutes: nat, thousandths: nat): real {
    (degrees as real + (minutes as real + thousandths as real / 1000.0) / 60.0) * 1000000.0
  }

  /**
    * The rounded magnitude in integer arithmetic. The exact value is
    * `degrees * 10^6 + n / 3` with `n = 50 * (1000 * minutes + thousandths)`,
    * so it is never halfway between two integers.
    */
  function Micro(degrees: nat, minutes: nat, thousandths: nat): (r: nat)
    ensures r >= degrees * 1000000
    ensures -1 <= 3 * (r - degrees * 1000000) - 50 * (1000 * minutes + thousandths) <= 1
  {
    degrees * 1000000 + (50 * (1000 * minutes + thousandths) + 1) / 3
  }

  /** `Micro` is the formula of `lat_to_decimal` and `lon_to_decimal` rounded as `f64::round` rounds it. */
  lemma MicroRounds(degrees: nat, minutes: nat, thousandths: nat)
    ensures Micro(degrees, minutes, thousandths) == Round(ExactMicro(degrees, minutes, thousandths))
  {
    var n := 50 * (1000 * minutes + thousandths);
    var q := (n + 1) / 3;
    assert n + 1 == 3 * q + (n + 1) % 3;
    var exact := ExactMicro(degrees, minutes, thousandths);
    assert exact == (degrees * 1000000) as real + n as real / 3.0;
    var r := degrees * 1000000 + q;
    assert exact - 0.5 < r as real <= exact + 0.5;
    assert (exact + 0.5).Floor == r;
  }

  /** The signed coordinate: the magnitude is kept, and the sign is negative unless `positive`. */
  function Hemisphere(positive: bool, magnitude: nat): (r: int)
    ensures (if r < 0 then -r else r) == magnitude
    ensures r < 0 <==> !positive && magnitude > 0
  {
    if positive then magnitude as int else -(magnitude as int)
  }

  /**
    * `lat_to_decimal` on the 8 bytes DDMM?ffH: degrees from bytes 0..2,
    * minutes from 2..4, thousandths of a minute from 5..7, and byte 7
    * positive exactly when it is 'N'. Byte 4 is never read.
    */
  function DecodeLat(gps: seq<byte>): (r: Option<int>)
    requires |gps| == 8
    ensures r.Some? <==> AllDigits(gps[0..2]) && AllDigits(gps[2..4]) && AllDigits(gps[5..7])
    ensures r.Some? ==> r.value == Hemisphere(gps[7] == NORTH,
      Micro(DigitsValue(gps[0..2]), DigitsValue(gps[2..4]), DigitsValue(gps[5..7])))
  {
    var degrees := ParseNat(gps[0..2]);
    var minutes := ParseNat(gps[2..4]);
    var thousandths := ParseNat(gps[5..7]);
    if degrees.None? || minutes.None? || thousandths.None? then None
    else Some(Hemisphere(gps[7] == NORTH, Micro(degrees.value, minutes.value, thousandths.value)))
  }

  /**
    * `lon_to_decimal` on the 9 bytes DDDMM?ffH: degrees from bytes 0..3,
    * minutes from 3..5, thousandths of a minute from 6..8, and byte 8
    * positive exactly when it is 'E'. Byte 5 is never read.
    */
  function DecodeLon(gps: seq<byte>): (r: Option<int>)
    requires |gps| == 9
    ensures r.Some? <==> AllDigits(gps[0..3]) && AllDigits(gps[3..5]) && AllDigits(gps[6..8])
    ensures r.Some? ==> r.value == Hemisphere(gps[8] == EAST,
      Micro(DigitsValue(gps[0..3]), DigitsValue(gps[3..5]), DigitsValue(gps[6..8])))
  {
    var degrees := ParseNat(gps[0..3]);
    var minutes := ParseNat(gps[3..5]);
    var thousandths := ParseNat(gps[6..8]);
    if degrees.None? || minutes.None? || thousandths.None? then None
    else Some(Hemisphere(gps[8] == EAST, Micro(degrees.value, minutes.value, thousandths.value)))
  }

  // ---------------------------------------------------------------------------
  // One fix record, stated on whole-line offsets

  /** The three slices `lat_to_decimal` parses, taken from the line, are digits. */
  predicate LatDigits(line: seq<byte>)
    requires |line| >= 15
  {
    AllDigits(line[7..9]) && AllDigits(line[9..11]) && AllDigits(line[12..14])
  }

  /** The three slices `lon_to_decimal` parses, taken from the line, are digits. */
  predicate LonDigits(line: seq<byte>)
    requires |line| >= 24
  {
    AllDigits(line[15..18]) && AllDigits(line[18..20]) && AllDigits(line[21..23])
  }

  /** Every field the parser reads is present and made of digits. */
  predicate WellFormedFix(line: seq<byte>) {
    |line| >= 24 && AllDigits(line[1..7]) && LatDigits(line) && LonDigits(line)
  }

  /** The fix a well-formed record stands for, read off the line layout directly. */
  function FixPoint(line: seq<byte>): Point
    requires WellFormedFix(line)
  {
    Point(
      DigitsValue(line[1..7]),
      Hemisphere(line[14] == NORTH,
        Micro(DigitsValue(line[7..9]), DigitsValue(line[9..11]), DigitsValue(line[12..14]))),
      Hemisphere(line[23] == EAST,
        Micro(DigitsValue(line[15..18]), DigitsValue(line[18..20]), DigitsValue(line[21..23]))))
  }

  /** The body of the `for_each` closure: time, then latitude, then longitude. */
  function ParseFix(line: seq<byte>): (r: Result<Point, Fault>)
    ensures r.Ok? <==> WellFormedFix(line)
    ensures r.Ok? ==> r.value == FixPoint(line) && r.value.time < 1000000
    ensures r == Err(ShortLine(7)) <==> |line| < 7
    ensures r == Err(BadTime) <==> |line| >= 7 && !AllDigits(line[1..7])
    ensures r == Err(ShortLine(15)) <==> 7 <= |line| < 15 && AllDigits(line[1..7])
    ensures r == Err(BadLatitude) <==> |line| >= 15 && AllDigits(line[1..7]) && !LatDigits(line)
    ensures r == Err(ShortLine(24)) <==> 15 <= |line| < 24 && AllDigits(line[1..7]) && LatDigits(line)
    ensures r == Err(BadLongitude) <==> |line| >= 24 && AllDigits(line[1..7]) && LatDigits(line) && !LonDigits(line)
    ensures r.Err? && r.error.ShortLine? ==> |line| < r.error.needed
  {
    if |line| < 7 then Err(ShortLine(7))
    else
      var time := ParseNat(line[1..7]);
      if time.None? then Err(BadTime)
      else if |line| < 15 then Err(ShortLine(15))
      else
        var gps := line[7..15];
        SliceOfSlice(line, 7, 15, 0, 2);
        SliceOfSlice(line, 7, 15, 2, 4);
        SliceOfSlice(line, 7, 15, 5, 7);
        var lat := DecodeLat(gps);
        if lat.None? then Err(BadLatitude)
        else if |line| < 24 then Err(ShortLine(24))
        else
          var gps' := line[15..24];
          SliceOfSlice(line, 15, 24, 0, 3);
          SliceOfSlice(line, 15, 24, 3, 5);
          SliceOfSlice(line, 15, 24, 6, 8);
          var lon := DecodeLon(gps');
          if lon.None? then Err(BadLongitude)
          else
            assert time.value == DigitsValue(line[1..7]);
            assert gps[7] == line[14] && gps'[8] == line[23];
            Ok(Point(time.value, lat.value, lon.value))
  }

  /** Two lines that agree on every byte the parser reads. */
  predicate AgreeOnReadBytes(a: seq<byte>, b: seq<byte>) {
    && (|a| == |b| || (|a| >= 24 && |b| >= 24))
    && forall i :: 0 <= i < |a| && i < |b| && i < 24 && i != 11 && i != 20 ==> a[i] == b[i]
  }

  lemma DecodeLatReads(g: seq<byte>, h: seq<byte>)
    requires |g| == 8 && |h| == 8
    requires g[0..4] == h[0..4] && g[5..] == h[5..]
    ensures DecodeLat(g) == DecodeLat(h)
  {
    assert g[0..2] == h[0..2] && g[2..4] == h[2..4];
    assert g[5..7] == h[5..7] && g[7] == h[7];
  }

  lemma DecodeLonReads(g: seq<byte>, h: seq<byte>)
    requires |g| == 9 && |h| == 9
    requires g[0..5] == h[0..5] && g[6..] == h[6..]
    ensures DecodeLon(g) == DecodeLon(h)
  {
    assert g[0..3] == h[0..3] && g[3..5] == h[3..5];
    assert g[6..8] == h[6..8] && g[8] == h[8];
  }

  /** Bytes 11 and 20, and everything from byte 24 on, never change the outcome. */
  lemma UnreadBytesIgnored(a: seq<byte>, b: seq<byte>)
    requires AgreeOnReadBytes(a, b)
    ensures ParseFix(a) == ParseFix(b)
  {
    if |a| >= 7 && |b| >= 7 {
      assert a[1..7] == b[1..7];
    }
    if |a| >= 15 && |b| >= 15 {
      var g, h := a[7..15], b[7..15];
      SliceOfSlice(a, 7, 15, 0, 4);
      SliceOfSlice(b, 7, 15, 0, 4);
      SliceOfSlice(a, 7, 15, 5, 8);
      SliceOfSlice(b, 7, 15, 5, 8);
      assert a[7..11] == b[7..11] && a[12..15] == b[12..15];
      assert g[5..] == g[5..8] && h[5..] == h[5..8];
      DecodeLatReads(g, h);
    }
    if |a| >= 24 && |b| >= 24 {
      var g, h := a[15..24], b[15..24];
      SliceOfSlice(a, 15, 24, 0, 5);
      SliceOfSlice(b, 15, 24, 0, 5);
      SliceOfSlice(a, 15, 24, 6, 9);
      SliceOfSlice(b, 15, 24, 6, 9);
      assert a[15..20] == b[15..20] && a[21..24] == b[21..24];
      assert g[6..] == g[6..9] && h[6..] == h[6..9];
      DecodeLonReads(g, h);
    }
  }

  // ---------------------------------------------------------------------------
  // The whole file

  /** The lines kept by `starts_with(b"B")`, in file order. */
  function FixRecords(lines: seq<seq<byte>>): (r: seq<seq<byte>>)
    ensures |r| <= |lines|
    ensures forall k :: 0 <= k < |r| ==> IsFixRecord(r[k])
  {
    if |lines| == 0 then []
    else (if IsFixRecord(lines[0]) then [lines[0]] else []) + FixRecords(lines[1..])
  }

  /** The kept lines are exactly the lines that start with 'B'. */
  lemma {:induction false} FixRecordsMembers(lines: seq<seq<byte>>)
    ensures forall l :: l in FixRecords(lines) <==> l in lines && IsFixRecord(l)
  {
    if |lines| > 0 {
      FixRecordsMembers(lines[1..]);
      assert lines == [lines[0]] + lines[1..];
    }
  }

  /** Every line is kept as often as it occurs in the file when it starts with 'B', and never otherwise. */
  lemma {:induction false} FixRecordsCount(lines: seq<seq<byte>>)
    ensures forall l :: multiset(FixRecords(lines))[l] == if IsFixRecord(l) then multiset(lines)[l] else 0
  {
    if |lines| > 0 {
      FixRecordsCount(lines[1..]);
      assert lines == [lines[0]] + lines[1..];
    }
  }

  /** The filter works line by line, so the kept lines stay in file order. */
  lemma {:induction false} FixRecordsAppend(a: seq<seq<byte>>, b: seq<seq<byte>>)
    ensures FixRecords(a + b) == FixRecords(a) + FixRecords(b)
  {
    if |a| > 0 {
      assert (a + b)[1..] == a[1..] + b;
      FixRecordsAppend(a[1..], b);
    } else {
      assert a + b == b;
    }
  }

  /** A record's time is six digits, so it stays below 1,000,000. */
  lemma FixTimeBound(line: seq<byte>)
    requires WellFormedFix(line)
    ensures FixPoint(line).time < 1000000
  {
    assert ParseFix(line).Ok?;
  }

  /** Every fix record of the file can be read; other lines may hold anything. */
  predicate FixesWellFormed(lines: seq<seq<byte>>) {
    |lines| == 0
    || ((IsFixRecord(lines[0]) ==> WellFormedFix(lines[0])) && FixesWellFormed(lines[1..]))
  }

  lemma {:induction false} FixesWellFormedMeans(lines: seq<seq<byte>>)
    ensures FixesWellFormed(lines)
      <==> forall i :: 0 <= i < |lines| && IsFixRecord(lines[i]) ==> WellFormedFix(lines[i])
  {
    if |lines| > 0 {
      FixesWellFormedMeans(lines[1..]);
      assert forall i :: 0 < i < |lines| ==> lines[i] == lines[1..][i - 1];
    }
  }

  predicate AllWellFormed(records: seq<seq<byte>>) {
    forall k :: 0 <= k < |records| ==> WellFormedFix(records[k])
  }

  /** The fixes of well-formed records, one per record, in record order. */
  function FixPoints(records: seq<seq<byte>>): (r: seq<Point>)
    requires AllWellFormed(records)
    ensures |r| == |records|
    ensures forall k :: 0 <= k < |r| ==> r[k] == FixPoint(records[k]) && r[k].time < 1000000
  {
    if |records| == 0 then []
    else
      FixTimeBound(records[0]);
      [FixPoint(records[0])] + FixPoints(records[1..])
  }

  lemma FixPointsCons(l: seq<byte>, rest: seq<seq<byte>>)
    requires WellFormedFix(l) && AllWellFormed(rest)
    ensures AllWellFormed([l] + rest)
    ensures FixPoints([l] + rest) == [FixPoint(l)] + FixPoints(rest)
  {
    assert ([l] + rest)[1..] == rest;
  }

  /**
    * Line `i` is the first fix record that cannot be read, and reading it
    * fails with `fault`.
    */
  predicate FirstBadFix(lines: seq<seq<byte>>, i: nat, fault: Fault) {
    && |lines| > 0
    && if i == 0 then IsFixRecord(lines[0]) && ParseFix(lines[0]) == Err(fault)
       else (IsFixRecord(lines[0]) ==> WellFormedFix(lines[0])) && FirstBadFix(lines[1..], i - 1, fault)
  }

  /** Line `i` is a fix record that fails with `fault`, and every fix record before it is well formed. */
  lemma {:induction false} FirstBadFixMeans(lines: seq<seq<byte>>, i: nat, fault: Fault)
    ensures FirstBadFix(lines, i, fault)
      <==> && i < |lines| && IsFixRecord(lines[i]) && ParseFix(lines[i]) == Err(fault)
           && forall j :: 0 <= j < i && IsFixRecord(lines[j]) ==> WellFormedFix(lines[j])
  {
    if |lines| > 0 && i > 0 {
      FirstBadFixMeans(lines[1..], i - 1, fault);
      if i < |lines| {
        assert lines[i] == lines[1..][i - 1];
        assert forall j :: 0 < j < i ==> lines[j] == lines[1..][j - 1];
      }
    }
  }

  /**
    * Reads the fix records of `lines` in order; the first one that cannot be
    * read stops everything. `first` is the index of `lines[0]` in the file.
    */
  function CollectFixes(lines: seq<seq<byte>>, first: nat): (r: Result<seq<Point>, ParseError>)
    ensures r.Ok? <==> FixesWellFormed(lines)
    ensures r.Ok? ==> AllWellFormed(FixRecords(lines)) && r.value == FixPoints(FixRecords(lines))
    ensures r.Err? ==> first <= r.error.line && FirstBadFix(lines, r.error.line - first, r.error.fault)
  {
    if |lines| == 0 then Ok([])
    else
      var rest := CollectFixes(lines[1..], first + 1);
      if !IsFixRecord(lines[0]) then rest
      else
        match ParseFix(lines[0])
        case Err(fault) => Err(ParseError(first, fault))
        case Ok(p) =>
          match rest
          case Err(e) => Err(e)
          case Ok(ps) =>
            FixPointsCons(lines[0], FixRecords(lines[1..]));
            Ok([p] + ps)
  }

  lemma SortStableEverywhere(s: seq<Point>)
    ensures forall time :: WithTime(Sort(s), time) == WithTime(s, time)
  {
    forall time
      ensures WithTime(Sort(s), time) == WithTime(s, time)
    {
      SortStable(s, time);
    }
  }

  lemma SortKeepsTimeBound(s: seq<Point>, bound: nat)
    requires forall k :: 0 <= k < |s| ==> s[k].time < bound
    ensures forall k :: 0 <= k < |Sort(s)| ==> Sort(s)[k].time < bound
  {
    var r := Sort(s);
    forall k | 0 <= k < |r|
      ensures r[k].time < bound
    {
      assert r[k] in multiset(r);
      assert r[k] in multiset(s);
      var j :| 0 <= j < |s| && s[j] == r[k];
    }
  }

  /**
    * `igc_file_to_trace` after the file has been read: split on newlines,
    * keep the fix records, read each one, then sort stably by time.
    */
  function ParseTrace(contents: seq<byte>): (r: Result<seq<Point>, ParseError>)
    ensures r.Ok? <==> FixesWellFormed(Split(contents))
    ensures r.Ok? ==>
      var records := FixRecords(Split(contents));
      && AllWellFormed(records)
      && |r.value| == |records|
      && Sorted(r.value)
      && multiset(r.value) == multiset(FixPoints(records))
      && (forall time :: WithTime(r.value, time) == WithTime(FixPoints(records), time))
      && (forall k :: 0 <= k < |r.value| ==> r.value[k].time < 1000000)
    ensures r.Err? ==> FirstBadFix(Split(contents), r.error.line, r.error.fault)
  {
    match CollectFixes(Split(contents), 0)
    case Err(e) => Err(e)
    case Ok(points) =>
      SortStableEverywhere(points);
      SortKeepsTimeBound(points, 1000000);
      Ok(Sort(points))
  }

  /** Only the fix records matter: two files with the same ones give the same trace. */
  lemma OnlyFixRecordsMatter(a: seq<byte>, b: seq<byte>)
    requires FixRecords(Split(a)) == FixRecords(Split(b))
    ensures ParseTrace(a).Ok? <==> ParseTrace(b).Ok?
    ensures ParseTrace(a).Ok? ==> ParseTrace(a) == ParseTrace(b)
  {
    WellFormedThroughRecords(Split(a));
    WellFormedThroughRecords(Split(b));
    if ParseTrace(a).Ok? {
      SortedStableUnique(ParseTrace(a).value, ParseTrace(b).value);
    }
  }

  lemma WellFormedThroughRecords(lines: seq<seq<byte>>)
    ensures FixesWellFormed(lines) <==> AllWellFormed(FixRecords(lines))
  {
    var records := FixRecords(lines);
    FixRecordsMembers(lines);
    FixesWellFormedMeans(lines);
    if FixesWellFormed(lines) {
      forall k | 0 <= k < |records|
        ensures WellFormedFix(records[k])
      {
        assert records[k] in lines;
      }
    }
    if AllWellFormed(records) {
      forall i | 0 <= i < |lines| && IsFixRecord(lines[i])
        ensures WellFormedFix(lines[i])
      {
        assert lines[i] in records;
      }
    }
  }
}

=== FILE: igc_encode.dfy ===
/**
  * Writing fix records in the IGC layout, and what the parser reads back.
  *
  * A fix record carries three digits of thousandths of a minute (bytes
  * 11..14 for the latitude, 20..23 for the longitude); the parser reads only
  * the last two of them, so a round trip keeps the thousandths modulo 100.
  */
module IgcEncode {

  import opened Bytes
  import opened Lines
  import opened Points
  import opened StableSort
  import opened Wrappers
  import opened Igc

  /** The fields of a fix record as the IGC layout writes them. */
  datatype Fix = Fix(
    time: nat,
    latDegrees: nat, latMinutes: nat, latThousandths: nat, north: bool,
    lonDegrees: nat, lonMinutes: nat, lonThousandths: nat, east: bool)

  /** Every field fits its width. */
  predicate Fits(f: Fix) {
    && f.time < 1000000
    && f.latDegrees < 100 && f.latMinutes < 100 && f.latThousandths < 1000
    && f.lonDegrees < 1000 && f.lonMinutes < 100 && f.lonThousandths < 1000
  }

  lemma {:induction false} DigitsHaveNoNewline(s: seq<byte>)
    requires AllDigits(s)
    ensures NoNewline(s)
  {
    if |s| > 0 {
      DigitsHaveNoNewline(s[..|s| - 1]);
      assert forall i :: 0 <= i < |s| - 1 ==> s[i] == s[..|s| - 1][i];
    }
  }

  /** The first 24 bytes of a fix record: B HHMMSS DDMMmmm N|S DDDMMmmm E|W. */
  function EncodeFix(f: Fix): (line: seq<byte>)
    ensures |line| == 24
    ensures IsFixRecord(line)
    ensures NoNewline(line)
    ensures line[1..7] == EncodeDigits(f.time, 6)
    ensures line[7..15] == EncodeLat(f)
    ensures line[15..24] == EncodeLon(f)
  {
    var line := [FIX] + EncodeDigits(f.time, 6) + EncodeLat(f) + EncodeLon(f);
    DigitsHaveNoNewline(EncodeDigits(f.time, 6));
    assert line[1..7] == EncodeDigits(f.time, 6);
    assert line[7..15] == EncodeLat(f);
    assert line[15..24] == EncodeLon(f);
    line
  }

  /** The latitude field DDMMmmm followed by N or S. */
  function EncodeLat(f: Fix): (gps: seq<byte>)
    ensures |gps| == 8
    ensures NoNewline(gps)
    ensures gps[0..2] == EncodeDigits(f.latDegrees, 2)
    ensures gps[2..4] == EncodeDigits(f.latMinutes, 2)
    ensures gps[4..7] == EncodeDigits(f.latThousandths, 3)
    ensures gps[7] == if f.north then NORTH else 83  // 'S'
  {
    var gps := EncodeDigits(f.latDegrees, 2) + EncodeDigits(f.latMinutes, 2) + EncodeDigits(f.latThousandths, 3)
      + [if f.north then NORTH else 83];
    assert gps[0..2] == EncodeDigits(f.latDegrees, 2);
    assert gps[2..4] == EncodeDigits(f.latMinutes, 2);
    assert gps[4..7] == EncodeDigits(f.latThousandths, 3);
    gps
  }

  /** The longitude field DDDMMmmm followed by E or W. */
  function EncodeLon(f: Fix): (gps: seq<byte>)
    ensures |gps| == 9
    ensures NoNewline(gps)
    ensures gps[0..3] == EncodeDigits(f.lonDegrees, 3)
    ensures gps[3..5] == EncodeDigits(f.lonMinutes, 2)
    ensures gps[5..8] == EncodeDigits(f.lonThousandths, 3)
    ensures gps[8] == if f.east then EAST else 87  // 'W'
  {
    var gps := EncodeDigits(f.lonDegrees, 3) + EncodeDigits(f.lonMinutes, 2) + EncodeDigits(f.lonThousandths, 3)
      + [if f.east then EAST else 87];
    assert gps[0..3] == EncodeDigits(f.lonDegrees, 3);
    assert gps[3..5] == EncodeDigits(f.lonMinutes, 2);
    assert gps[5..8] == EncodeDigits(f.lonThousandths, 3);
    gps
  }

  /** What the parser makes of an encoded record: thousandths lose their hundreds digit. */
  function ReadBack(f: Fix): Point {
    Point(f.time,
      Hemisphere(f.north, Micro(f.latDegrees, f.latMinutes, f.latThousandths % 100)),
      Hemisphere(f.east, Micro(f.lonDegrees, f.lonMinutes, f.lonThousandths % 100)))
  }

  lemma OneDigit(n: nat)
    ensures EncodeDigits(n, 1) == [ZERO + (n % 10) as byte]
  {
    assert EncodeDigits(n / 10, 0) == [];
  }

  lemma CutHundreds(h: nat, m: nat)
    requires m < 100
    ensures (100 * h + m) % 100 == m
  {
  }

  lemma LowDigitsArith(n: nat)
    ensures (n % 100) / 10 == n / 10 % 10
    ensures (n % 100) % 10 == n % 10
  {
    var q, u := n / 10, n % 10;
    var h, t := q / 10, q % 10;
    assert n == 10 * q + u;
    assert q == 10 * h + t;
    assert n == 100 * h + (10 * t + u);
    CutHundreds(h, 10 * t + u);
    ShiftDigit(t, u);
  }

  /** The last two of three digits are the number modulo 100. */
  lemma LowTwoDigits(n: nat)
    ensures EncodeDigits(n, 3)[1..] == EncodeDigits(n % 100, 2)
  {
    var q, low := n / 10, n % 100;
    LowDigitsArith(n);
    var tens, units := ZERO + (q % 10) as byte, ZERO + (n % 10) as byte;
    OneDigit(q / 10);
    OneDigit(low / 10);
    assert EncodeDigits(q, 2) == EncodeDigits(q / 10, 1) + [tens];
    assert EncodeDigits(n, 3) == EncodeDigits(q / 10, 1) + [tens] + [units];
    assert EncodeDigits(low, 2) == [tens] + [units];
  }

  lemma ReadTwoOfThree(n: nat)
    ensures AllDigits(EncodeDigits(n, 3)[1..])
    ensures DigitsValue(EncodeDigits(n, 3)[1..]) == n % 100
  {
    LowTwoDigits(n);
    DecodeEncode(n % 100, 2);
  }

  /** Reading an encoded record, whatever follows it on the line. */
  lemma {:induction false} ParseEncodedFix(f: Fix, tail: seq<byte>)
    requires Fits(f)
    ensures ParseFix(EncodeFix(f) + tail) == Ok(ReadBack(f))
  {
    var line := EncodeFix(f) + tail;
    var lat, lon := EncodeLat(f), EncodeLon(f);
    assert line[..24] == EncodeFix(f);
    SliceOfSlice(line, 0, 24, 1, 7);
    SliceOfSlice(line, 0, 24, 7, 15);
    SliceOfSlice(line, 0, 24, 15, 24);
    SliceOfSlice(line, 7, 15, 0, 2);
    SliceOfSlice(line, 7, 15, 2, 4);
    SliceOfSlice(line, 7, 15, 4, 7);
    SliceOfSlice(line, 7, 15, 5, 7);
    SliceOfSlice(line, 15, 24, 0, 3);
    SliceOfSlice(line, 15, 24, 3, 5);
    SliceOfSlice(line, 15, 24, 5, 8);
    SliceOfSlice(line, 15, 24, 6, 8);
    SliceOfSlice(line, 11, 14, 1, 3);
    SliceOfSlice(line, 20, 23, 1, 3);
    assert line[1..7] == EncodeDigits(f.time, 6);
    assert line[7..9] == EncodeDigits(f.latDegrees, 2) && line[9..11] == EncodeDigits(f.latMinutes, 2);
    assert line[12..14] == EncodeDigits(f.latThousandths, 3)[1..];
    assert line[15..18] == EncodeDigits(f.lonDegrees, 3) && line[18..20] == EncodeDigits(f.lonMinutes, 2);
    assert line[21..23] == EncodeDigits(f.lonThousandths, 3)[1..];
    assert line[14] == lat[7] && line[23] == lon[8];
    DecodeEncode(f.time, 6);
    DecodeEncode(f.latDegrees, 2);
    DecodeEncode(f.latMinutes, 2);
    DecodeEncode(f.lonDegrees, 3);
    DecodeEncode(f.lonMinutes, 2);
    ReadTwoOfThree(f.latThousandths);
    ReadTwoOfThree(f.lonThousandths);
    assert WellFormedFix(line);
    assert FixPoint(line) == ReadBack(f);
  }

  /** The lines of a file holding one encoded record per fix. */
  function EncodeLines(fixes: seq<Fix>): (lines: seq<seq<byte>>)
    ensures |lines| == |fixes|
    ensures forall k :: 0 <= k < |lines| ==> lines[k] == EncodeFix(fixes[k])
  {
    seq(|fixes|, k requires 0 <= k < |fixes| => EncodeFix(fixes[k]))
  }

  lemma {:induction false} AllFixRecordsKept(lines: seq<seq<byte>>)
    requires forall k :: 0 <= k < |lines| ==> IsFixRecord(lines[k])
    ensures FixRecords(lines) == lines
  {
    if |lines| > 0 {
      AllFixRecordsKept(lines[1..]);
      assert lines == [lines[0]] + lines[1..];
    }
  }

  lemma EncodedLinesRead(fixes: seq<Fix>)
    requires forall k :: 0 <= k < |fixes| ==> Fits(fixes[k])
    ensures FixesWellFormed(EncodeLines(fixes))
    ensures AllWellFormed(EncodeLines(fixes))
    ensures FixPoints(EncodeLines(fixes)) == seq(|fixes|, k requires 0 <= k < |fixes| => ReadBack(fixes[k]))
  {
    var lines := EncodeLines(fixes);
    FixesWellFormedMeans(lines);
    forall k | 0 <= k < |lines|
      ensures WellFormedFix(lines[k]) && FixPoint(lines[k]) == ReadBack(fixes[k])
    {
      ParseEncodedFix(fixes[k], []);
      assert EncodeFix(fixes[k]) + [] == lines[k];
    }
  }

  /**
    * A file written from fixes that fit their fields parses to the stable
    * sort of what each record reads back as.
    */
  lemma ParseEncodedFile(fixes: seq<Fix>)
    requires forall k :: 0 <= k < |fixes| ==> Fits(fixes[k])
    ensures ParseTrace(Unsplit(EncodeLines(fixes)))
      == Ok(Sort(seq(|fixes|, k requires 0 <= k < |fixes| => ReadBack(fixes[k]))))
  {
    var lines := EncodeLines(fixes);
    var expected := seq(|fixes|, k requires 0 <= k < |fixes| => ReadBack(fixes[k]));
    EncodedLinesRead(fixes);
    SplitUnsplit(lines);
    AllFixRecordsKept(lines);
    var r := ParseTrace(Unsplit(lines));
    assert r.Ok?;
    StableSortIsSort(expected, r.value);
  }

  /**
    * The record B1101355206343N00006198W of a flight log (its bytes are the
    * display below) is the encoding of 11:01:35, 52 degrees 06.343 minutes
    * north, 0 degrees 06.198 minutes west. By `ParseEncodedFix` the parser
    * reads it as 06.043 and 06.098 minutes, giving the point below.
    */
  lemma ExampleRecord()
    ensures var f := Fix(110135, 52, 6, 343, true, 0, 6, 198, false);
      && Fits(f)
      && EncodeFix(f) == [66] + [49, 49, 48, 49, 51, 53] + [53, 50, 48, 54, 51, 52, 51, 78]
                         + [48, 48, 48, 48, 54, 49, 57, 56, 87]
      && ReadBack(f) == Point(110135, 52100717, -101633)
  {
    var f := Fix(110135, 52, 6, 343, true, 0, 6, 198, false);
    ExampleTime();
    ExampleLat(f);
    ExampleLon(f);
  }

  lemma ExampleTime()
    ensures EncodeDigits(110135, 6) == [49, 49, 48, 49, 51, 53]
  {
    EncodeLastDigit(1, 1, 0, 1);
    EncodeLastDigit(11, 2, 1, 1);
    EncodeLastDigit(110, 3, 11, 0);
    EncodeLastDigit(1101, 4, 110, 1);
    EncodeLastDigit(11013, 5, 1101, 3);
    EncodeLastDigit(110135, 6, 11013, 5);
  }

  lemma ExampleLat(f: Fix)
    requires f == Fix(110135, 52, 6, 343, true, 0, 6, 198, false)
    ensures EncodeLat(f) == [53, 50, 48, 54, 51, 52, 51, 78]
  {
    EncodeLastDigit(5, 1, 0, 5);
    EncodeLastDigit(52, 2, 5, 2);
    EncodeLastDigit(0, 1, 0, 0);
    EncodeLastDigit(6, 2, 0, 6);
    EncodeLastDigit(3, 1, 0, 3);
    EncodeLastDigit(34, 2, 3, 4);
    EncodeLastDigit(343, 3, 34, 3);
  }

  lemma ExampleLon(f: Fix)
    requires f == Fix(110135, 52, 6, 343, true, 0, 6, 198, false)
    ensures EncodeLon(f) == [48, 48, 48, 48, 54, 49, 57, 56, 87]
  {
    EncodeLastDigit(0, 1, 0, 0);
    EncodeLastDigit(0, 2, 0, 0);
    EncodeLastDigit(0, 3, 0, 0);
    EncodeLastDigit(6, 2, 0, 6);
    EncodeLastDigit(1, 1, 0, 1);
    EncodeLastDigit(19, 2, 1, 9);
    EncodeLastDigit(198, 3, 19, 8);
  }
}

=== FILE: lines.dfy ===
/**
  * Cutting file contents into lines the way `BufRead::split(b'\n')` does:
  * each segment is the bytes up to (not including) the next newline, and a
  * final newline does not start an extra, empty segment.
  */
module Lines {

  import opened Bytes

  predicate NoNewline(line: seq<byte>) {
    forall i :: 0 <= i < |line| ==> line[i] != NL
  }

  /** Position of the first newline, or `|s|` when there is none. */
  function FirstNewline(s: seq<byte>): (i: nat)
    ensures i <= |s|
    ensures i < |s| ==> s[i] == NL
    ensures NoNewline(s[..i])
  {
    if |s| == 0 || s[0] == NL then 0
    else
      var rest := FirstNewline(s[1..]);
      assert s[..1 + rest] == [s[0]] + s[1..][..rest];
      1 + rest
  }

  function Split(s: seq<byte>): (lines: seq<seq<byte>>)
    ensures forall k :: 0 <= k < |lines| ==> NoNewline(lines[k])
    decreases |s|
  {
    if |s| == 0 then []
    else
      var i := FirstNewline(s);
      if i == |s| then
        assert s[..i] == s;
        [s]
      else [s[..i]] + Split(s[i + 1..])
  }

  /** Writes each line followed by a newline. */
  function Unsplit(lines: seq<seq<byte>>): seq<byte> {
    if |lines| == 0 then [] else lines[0] + [NL] + Unsplit(lines[1..])
  }

  /** Lines free of newlines are recovered exactly from their newline-terminated text. */
  lemma {:induction false} SplitUnsplit(lines: seq<seq<byte>>)
    requires forall k :: 0 <= k < |lines| ==> NoNewline(lines[k])
    ensures Split(Unsplit(lines)) == lines
  {
    if |lines| > 0 {
      var s := Unsplit(lines);
      var l := lines[0];
      assert s == l + ([NL] + Unsplit(lines[1..]));
      assert s[|l|] == NL;
      assert s[..|l|] == l;
      assert FirstNewline(s) == |l|;
      assert s[|l| + 1..] == Unsplit(lines[1..]);
      SplitUnsplit(lines[1..]);
    }
  }

  lemma SplitCons(s: seq<byte>)
    requires FirstNewline(s) < |s|
    ensures Split(s) == [s[..FirstNewline(s)]] + Split(s[FirstNewline(s) + 1..])
  {
  }

  lemma UnsplitCons(line: seq<byte>, lines: seq<seq<byte>>)
    ensures Unsplit([line] + lines) == line + [NL] + Unsplit(lines)
  {
    assert ([line] + lines)[1..] == lines;
  }

  /** The contents with a newline added when they are not empty and do not end in one. */
  function Terminated(s: seq<byte>): seq<byte> {
    if |s| == 0 || s[|s| - 1] == NL then s else s + [NL]
  }

  /**
    * Splitting loses nothing but the final newline: writing the lines back
    * gives the contents, with a newline added when they did not end in one.
    */
  lemma {:induction false} UnsplitSplit(s: seq<byte>)
    ensures Unsplit(Split(s)) == Terminated(s)
    decreases |s|
  {
    if |s| > 0 {
      var i := FirstNewline(s);
      if i == |s| {
        assert s[..i] == s;
        UnsplitCons(s, []);
      } else {
        var head, rest := s[..i], s[i + 1..];
        calc {
          Unsplit(Split(s));
          == { SplitCons(s); }
          Unsplit([head] + Split(rest));
          == { UnsplitCons(head, Split(rest)); }
          head + [NL] + Unsplit(Split(rest));
          == { UnsplitSplit(rest); }
          head + [NL] + Terminated(rest);
          == { TerminatedAfterNewline(head, rest); CutAt(s, i); }
          Terminated(s);
        }
      }
    }
  }

  lemma CutAt(s: seq<byte>, i: nat)
    requires i < |s| && s[i] == NL
    ensures s == s[..i] + [NL] + s[i + 1..]
  {
  }

  lemma TerminatedAfterNewline(head: seq<byte>, rest: seq<byte>)
    ensures Terminated(head + [NL] + rest) == head + [NL] + Terminated(rest)
  {
    var s := head + [NL] + rest;
    if |rest| > 0 {
      assert s[|s| - 1] == rest[|rest| - 1];
    } else {
      assert s == head + [NL];
    }
  }
}

=== FILE: perimeter.dfy ===
/**
  * `triangle_perimeter`: the length of the closed path through three fixes
  * of a trace. The great-circle distance is a parameter; the one fact the
  * model takes from its haversine body is that a point is at distance 0
  * from itself (both differences are 0, so the haversine term is 0 and
  * `atan2(0, 1)` is 0).
  */
module Perimeter {

  import opened Points

  /** The distance in kilometres between two fixes, as `Point::distance` computes it. */
  type Metric = (Point, Point) -> real

  ghost predicate ZeroOnDiagonal(distance: Metric) {
    forall p :: distance(p, p) == 0.0
  }

  /** The indices must be in range: `triangle_perimeter` does not check them itself, and indexing panics when one is out of range. */
  function TrianglePerimeter(trace: seq<Point>, i: nat, j: nat, k: nat, distance: Metric): (r: real)
    requires i < |trace| && j < |trace| && k < |trace|
    ensures r == distance(trace[i], trace[j]) + distance(trace[j], trace[k]) + distance(trace[k], trace[i])
    ensures ZeroOnDiagonal(distance) && i == j == k ==> r == 0.0
    ensures ZeroOnDiagonal(distance) && k == i ==> r == distance(trace[i], trace[j]) + distance(trace[j], trace[i])
  {
    var d1 := distance(trace[i], trace[j]);
    var d2 := distance(trace[j], trace[k]);
    var d3 := distance(trace[k], trace[i]);
    d1 + d2 + d3
  }
}

=== FILE: points.dfy ===
/**
  * A fix of the flight trace and its ordering. Equality and every
  * comparison look at `time` alone: two fixes taken at the same second but
  * at different places are equal and compare `Equal`.
  */
module Points {

  import opened Wrappers

  /** `time` is the HHMMSS field read as one decimal number; `lat` and `lon` are micro-degrees. */
  datatype Point = Point(time: nat, lat: int, lon: int)

  datatype Ordering = Less | Equal | Greater

  function Reverse(o: Ordering): Ordering {
    match o
    case Less => Greater
    case Equal => Equal
    case Greater => Less
  }

  /** `Ord::cmp`: the comparison of the two times. */
  function Cmp(a: Point, b: Point): (r: Ordering)
    ensures r == Less <==> a.time < b.time
    ensures r == Equal <==> a.time == b.time
    ensures r == Greater <==> a.time > b.time
  {
    if a.time < b.time then Less else if a.time == b.time then Equal else Greater
  }

  /** `PartialOrd::partial_cmp`: the order is total, so there is always an answer. */
  function PartialCmp(a: Point, b: Point): (r: Option<Ordering>)
    ensures r == Some(Cmp(a, b))
  {
    Some(if a.time < b.time then Less else if a.time > b.time then Greater else Equal)
  }

  /** `PartialEq::eq`. */
  function Eq(a: Point, b: Point): (r: bool)
    ensures r <==> Cmp(a, b) == Equal
  {
    a.time == b.time
  }

  /** `Ord::max` through `max_by`: the second argument unless the first is strictly greater. */
  function Max(a: Point, b: Point): (r: Point)
    ensures r == a || r == b
    ensures Cmp(r, a) != Less && Cmp(r, b) != Less
    ensures Eq(a, b) ==> r == b
  {
    match Cmp(a, b)
    case Greater => a
    case _ => b
  }

  /** `Ord::min` through `min_by`: the first argument unless it is strictly greater. */
  function Min(a: Point, b: Point): (r: Point)
    ensures r == a || r == b
    ensures Cmp(r, a) != Greater && Cmp(r, b) != Greater
    ensures Eq(a, b) ==> r == a
  {
    match Cmp(a, b)
    case Greater => b
    case _ => a
  }

  /** `cmp` is a total preorder: reflexive, reversed by swapping, transitive. */
  lemma CmpTotalPreorder(a: Point, b: Point, c: Point)
    ensures Cmp(a, a) == Equal
    ensures Cmp(b, a) == Reverse(Cmp(a, b))
    ensures Cmp(a, b) != Greater && Cmp(b, c) != Greater ==> Cmp(a, c) != Greater
    ensures Cmp(a, b) == Less && Cmp(b, c) != Greater ==> Cmp(a, c) == Less
  {
  }

  /** `eq` is an equivalence relation, and it ignores the coordinates. */
  lemma EqEquivalence(a: Point, b: Point, c: Point)
    ensures Eq(a, a)
    ensures Eq(a, b) == Eq(b, a)
    ensures Eq(a, b) && Eq(b, c) ==> Eq(a, c)
    ensures a.time == b.time ==> Eq(a, b)
  {
  }

  /** `min` and `max` of a pair hand back the pair itself, never one fix twice. */
  lemma MinMaxSplitPair(a: Point, b: Point)
    ensures multiset{Min(a, b), Max(a, b)} == multiset{a, b}
  {
  }
}

=== FILE: stable_sort.dfy ===
/**
  * `Vec::sort` on a trace: a stable sort by `Points.Cmp`. It is modelled by
  * insertion sort; `StableSortIsSort` shows that every stable sort yields
  * the same sequence, so the choice of algorithm does not matter.
  */
module StableSort {

  import opened Points

  predicate Sorted(s: seq<Point>) {
    forall i, j :: 0 <= i < j < |s| ==> s[i].time <= s[j].time
  }

  /** The fixes of `s` taken at `time`, in their order in `s`. */
  function WithTime(s: seq<Point>, time: nat): seq<Point> {
    if |s| == 0 then []
    else (if s[0].time == time then [s[0]] else []) + WithTime(s[1..], time)
  }

  /** A fix no later than the head of a sorted sequence can go in front of it. */
  lemma ConsSorted(x: Point, s: seq<Point>)
    requires Sorted(s)
    requires |s| > 0 ==> x.time <= s[0].time
    ensures Sorted([x] + s)
  {
    var r := [x] + s;
    forall i, j | 0 <= i < j < |r|
      ensures r[i].time <= r[j].time
    {
      if i == 0 && j > 1 {
        assert s[0].time <= s[j - 1].time;
      }
    }
  }

  /** Puts `x` in front of the first element it is not greater than. */
  function Insert(x: Point, s: seq<Point>): (r: seq<Point>)
    ensures multiset(r) == multiset(s) + multiset{x}
    ensures |r| > 0 && (r[0] == x || (|s| > 0 && r[0] == s[0]))
  {
    if |s| == 0 || Cmp(x, s[0]) != Greater then [x] + s
    else
      var rest := Insert(x, s[1..]);
      assert s == [s[0]] + s[1..];
      [s[0]] + rest
  }

  /** Insertion keeps a sorted sequence sorted. */
  lemma {:induction false} InsertSorted(x: Point, s: seq<Point>)
    requires Sorted(s)
    ensures Sorted(Insert(x, s))
  {
    if |s| == 0 || Cmp(x, s[0]) != Greater {
      ConsSorted(x, s);
    } else {
      var rest := Insert(x, s[1..]);
      SortedTail(s);
      InsertSorted(x, s[1..]);
      if rest[0] != x {
        assert s[0].time <= s[1].time;
      }
      ConsSorted(s[0], rest);
    }
  }

  lemma SortedTail(s: seq<Point>)
    requires Sorted(s) && |s| > 0
    ensures Sorted(s[1..])
  {
    forall i, j | 0 <= i < j < |s| - 1
      ensures s[1..][i].time <= s[1..][j].time
    {
      assert s[1..][i] == s[i + 1] && s[1..][j] == s[j + 1];
    }
  }

  function Sort(s: seq<Point>): (r: seq<Point>)
    ensures Sorted(r)
    ensures multiset(r) == multiset(s)
    ensures |r| == |s|
  {
    if |s| == 0 then []
    else
      assert s == [s[0]] + s[1..];
      InsertSorted(s[0], Sort(s[1..]));
      Insert(s[0], Sort(s[1..]))
  }

  lemma WithTimeCons(x: Point, s: seq<Point>, time: nat)
    ensures WithTime([x] + s, time) == (if x.time == time then [x] else []) + WithTime(s, time)
  {
    assert ([x] + s)[1..] == s;
  }

  /** Inserting never moves `x` past a fix with its own time. */
  lemma {:induction false} InsertStable(x: Point, s: seq<Point>, time: nat)
    ensures WithTime(Insert(x, s), time) == WithTime([x] + s, time)
  {
    if |s| > 0 && Cmp(x, s[0]) == Greater {
      var rest := s[1..];
      assert s == [s[0]] + rest;
      calc {
        WithTime(Insert(x, s), time);
        WithTime([s[0]] + Insert(x, rest), time);
        { WithTimeCons(s[0], Insert(x, rest), time); }
        (if s[0].time == time then [s[0]] else []) + WithTime(Insert(x, rest), time);
        { InsertStable(x, rest, time); WithTimeCons(x, rest, time); }
        (if s[0].time == time then [s[0]] else []) + ((if x.time == time then [x] else []) + WithTime(rest, time));
        { WithTimeCons(s[0], rest, time); WithTimeCons(x, s, time); }
        WithTime([x] + s, time);
      }
    }
  }

  /** Stability: for each time, the fixes taken at that time keep their input order. */
  lemma {:induction false} SortStable(s: seq<Point>, time: nat)
    ensures WithTime(Sort(s), time) == WithTime(s, time)
  {
    if |s| > 0 {
      var rest := s[1..];
      assert s == [s[0]] + rest;
      InsertStable(s[0], Sort(rest), time);
      WithTimeCons(s[0], Sort(rest), time);
      SortStable(rest, time);
      WithTimeCons(s[0], rest, time);
    }
  }

  /** In a sorted sequence no fix before the first one taken at `time` is later than `time`. */
  lemma {:induction false} SortedHeadBound(s: seq<Point>, time: nat)
    requires Sorted(s)
    requires WithTime(s, time) != []
    ensures |s| > 0 && s[0].time <= time
  {
    if s[0].time != time {
      assert WithTime(s[1..], time) != [];
      SortedHeadBound(s[1..], time);
    }
  }

  lemma HeadTimePresent(s: seq<Point>)
    requires |s| > 0
    ensures WithTime(s, s[0].time) != []
  {
  }

  /** Two sorted sequences that agree time by time are the same sequence. */
  lemma {:induction false} SortedStableUnique(a: seq<Point>, b: seq<Point>)
    requires Sorted(a) && Sorted(b)
    requires forall time :: WithTime(a, time) == WithTime(b, time)
    ensures a == b
  {
    if |a| == 0 && |b| == 0 {
    } else if |a| == 0 {
      HeadTimePresent(b);
      assert false;
    } else if |b| == 0 {
      HeadTimePresent(a);
      assert false;
    } else {
      assert WithTime(a, a[0].time) != [];
      SortedHeadBound(b, a[0].time);
      assert WithTime(b, b[0].time) != [];
      SortedHeadBound(a, b[0].time);
      var m := a[0].time;
      assert b[0].time == m;
      assert WithTime(a, m)[0] == a[0] && WithTime(b, m)[0] == b[0];
      forall time
        ensures WithTime(a[1..], time) == WithTime(b[1..], time)
      {
        assert WithTime(a, time) == WithTime(b, time);
        if time == m {
          var ta, tb := WithTime(a[1..], time), WithTime(b[1..], time);
          assert WithTime(a, time) == [a[0]] + ta;
          assert WithTime(b, time) == [b[0]] + tb;
          assert ([a[0]] + ta)[1..] == ta && ([b[0]] + tb)[1..] == tb;
        } else {
          assert WithTime(a, time) == WithTime(a[1..], time);
          assert WithTime(b, time) == WithTime(b[1..], time);
        }
      }
      SortedStableUnique(a[1..], b[1..]);
      assert a == [a[0]] + a[1..] && b == [b[0]] + b[1..];
    }
  }

  /** Any sorted, stable rearrangement of `s`, such as the one `Vec::sort` returns, is `Sort(s)`. */
  lemma StableSortIsSort(s: seq<Point>, r: seq<Point>)
    requires Sorted(r)
    requires forall time :: WithTime(r, time) == WithTime(s, time)
    ensures r == Sort(s)
  {
    forall time
      ensures WithTime(r, time) == WithTime(Sort(s), time)
    {
      SortStable(s, time);
    }
    SortedStableUnique(r, Sort(s));
  }

  /** Sorting a pair gives its `min` then its `max`. */
  lemma SortPairIsMinMax(a: Point, b: Point)
    ensures Sort([a, b]) == [Min(a, b), Max(a, b)]
  {
    assert [a, b][1..] == [b];
    assert [b][1..] == [];
  }
}

=== FILE: wrappers.dfy ===
/** Failure-aware result types used by the parser. */
module Wrappers {

  /** A value that may be missing, as `str::parse(..).ok()` would give. */
  datatype Option<T> = None | Some(value: T)

  /** Either a value or the reason why none could be produced. */
  datatype Result<T, E> = Ok(value: T) | Err(error: E)
}
